=== FILE: README.md ===
# Bingo board: a Dafny model

This project models the `BingoGame` React component (`src/components/BingoGame.tsx`).
The component has two modes:

- In **edit** mode the player sizes a square board and types a label into every cell.
- In **play** mode the player marks cells with a left click and unmarks them with a right click.

After every click the component recomputes which rows, columns and diagonals are fully marked. It reports them as identifiers `row-i`, `col-j`, `diag-1` and `diag-2`, which the overlay parses back to draw the lines.

The model is a set of pure functions over an immutable state. Each handler is one atomic transition of that state:

- `Game(mode, rows, cols, board, completed)` is the component state;
- `Text` models `String.prototype.trim` with the ECMAScript whitespace and line-terminator code points, as two index scans;
- `Grid` holds the modes, the cell, the board and the board updates;
- `Lines` holds line completion and `checkBingo`;
- `LineIds` holds the string identifiers, `split('-')` and the overlay's parse of them;
- `Bingo` holds the handlers, the state invariant and runs of user actions;
- `Scenarios` holds concrete plays on a 3 x 3 board.

The central results are these:

- `checkBingo` returns exactly the completed lines, each once, in a fixed order. That order makes its output the only such list (`Lines.CheckBingoIsUnique`).
- Every reachable state satisfies an invariant that ties the reported lines to the board (`Bingo.ReachableStatesReportExactly`).
- The mode toggle round-trips (`Bingo.EditPlayEditRestores`).
- Clicks act locally on the lines (`Bingo.ClickKeepsOtherLines`, `Bingo.DeselectRemovesLinesThrough`, `Bingo.SelectKeepsLines`).
- Every identifier is read back as the line it names (`LineIds.DecodeNameInvertsName`).

Three details of the code shape the model:

- `initializeBoard` does not change the mode. The size form that triggers it is rendered only in edit mode, so a board cannot be resized in play mode.
- Setting the size to the value it already has rebuilds nothing. The effect that calls `initializeBoard` depends on `[rows, cols]`, and React skips it when neither changed.
- The size input's `onChange` takes any number, including `0` for an empty field. The `min`/`max` attributes are only checked when the form is submitted. The model therefore admits every non-negative size, including the degenerate 0 x 0 board. On that board `checkBingo` never runs and no line is reported.

The state of the component is taken to be the state after its mount effect ran: a 3 x 3 board of empty, unmarked cells in edit mode (`Bingo.Initial`). The state is never observed before that effect.

`handleCellTextChange` and `handleCellClick` copy the board shallowly and assign to the cell in place. The model writes the new cell into a fresh board. The result is the same, because the old state is never read again.

## Model

| member | source | states |
|---|---|---|
| `Text.SkipLeading` | src/components/BingoGame.tsx:97 | The start of `trim()`: the scan stops at the first character that is not whitespace (or the end), and everything it passes is whitespace. |
| `Text.SkipTrailing` | src/components/BingoGame.tsx:97 | The end of `trim()`: scanning back, never below the start, it stops just after the last character that is not whitespace, and everything it passes is whitespace. |
| `Text.Trim` | src/components/BingoGame.tsx:97 | `trim()` returns a contiguous piece of the text. Everything outside the piece is whitespace, and the piece is empty or starts and ends with a character that is not. |
| `Text.HasContent` | src/components/BingoGame.tsx:97 | `cell.text.trim() !== ''` holds exactly when the text is not blank, that is, it contains a character that is not whitespace. |
| `Text.TrimEmptyIff` | src/components/BingoGame.tsx:97 | Trimming leaves nothing exactly when every character is whitespace. |
| `Text.TrimKeepsUnpadded` | src/components/BingoGame.tsx:97 | A text that neither starts nor ends with whitespace is its own trim. |
| `Text.TrimIdempotent` | src/components/BingoGame.tsx:97 | Trimming an already trimmed text changes nothing. |
| `Grid.EmptyBoard` | src/components/BingoGame.tsx:24-31 | The loops build `rows` rows of `cols` cells, each with empty text and unmarked. |
| `Grid.SetCell` | src/components/BingoGame.tsx:40-41 | Writing one cell keeps the board's shape and every other cell. |
| `Grid.SetCellKeepsNoSelection` | src/components/BingoGame.tsx:40-41 | Writing an unmarked cell into a board with nothing marked leaves nothing marked. |
| `Grid.ClearSelections` | src/components/BingoGame.tsx:109-111 | The reset board has the same shape and texts, and no cell is marked. |
| `Grid.ClearSelectionsKeepsUnselected` | src/components/BingoGame.tsx:109-111 | Resetting a board on which nothing is marked gives back the same board. |
| `Lines.AllSelected` | src/components/BingoGame.tsx:67 | Defines `row.every((cell) => cell.selected)`. Its meaning is stated by `Lines.RowLines`, which reports a row exactly when it is completed. |
| `Lines.ColumnSelected` | src/components/BingoGame.tsx:74 | Defines `currentBoard.every((row) => row[j].selected)`. Its meaning is stated by `Lines.ColLines`, which reports a column exactly when it is completed. |
| `Lines.MainDiagonalSelected` | src/components/BingoGame.tsx:80 | Defines `currentBoard.every((row, idx) => row[idx].selected)`. Its meaning is stated by `Lines.DiagLines`, which reports `diag-1` exactly when it is completed. |
| `Lines.AntiDiagonalSelected` | src/components/BingoGame.tsx:85 | Defines `currentBoard.every((row, idx) => row[cols - 1 - idx].selected)`. Its meaning is stated by `Lines.DiagLines`, which reports `diag-2` exactly when it is completed. |
| `Lines.RowLines` | src/components/BingoGame.tsx:66-70 | The row loop reports `row-i` exactly for the fully marked rows below its bound, in ascending order. |
| `Lines.ColLines` | src/components/BingoGame.tsx:73-77 | The column loop reports `col-j` exactly for the fully marked columns below its bound, in ascending order and after every row. |
| `Lines.DiagLines` | src/components/BingoGame.tsx:79-87 | Each diagonal is reported exactly when the board is square and all of that diagonal's cells are marked; `diag-1` comes before `diag-2`. |
| `Lines.CheckBingo` | src/components/BingoGame.tsx:62-90 | A line is reported if and only if it is completed. Each line appears once, in the report order (rows, columns, `diag-1`, `diag-2`). There are at most `rows + cols + 2` lines, and no diagonal on a non-square board. |
| `Lines.OrderedListsWithSameLinesAreEqual` | src/components/BingoGame.tsx:62-90 | Two lists in report order that hold the same lines are equal. |
| `Lines.CheckBingoIsUnique` | src/components/BingoGame.tsx:62-90 | Any report-ordered list of exactly the completed lines equals the `checkBingo` result, so the result depends on the board alone. |
| `Lines.NoSelectionNoLines` | src/components/BingoGame.tsx:62-90 | On a board with at least one cell and nothing marked, no line is reported. |
| `Lines.NoSelectionNotCompleted` | src/components/BingoGame.tsx:62-90 | On a board with at least one cell and nothing marked, no line is completed. |
| `Lines.CompletedLineSelectedThrough` | src/components/BingoGame.tsx:62-90 | Every cell a completed line passes through is marked. |
| `Lines.CompletedAwayFromCell` | src/components/BingoGame.tsx:46-59 | Changing one cell does not change whether a line avoiding that cell is completed. |
| `Lines.CompletedMonotone` | src/components/BingoGame.tsx:62-90 | Marking more cells never un-completes a line. |
| `Lines.CheckBingoMonotone` | src/components/BingoGame.tsx:62-90 | Marking more cells never removes a line from the `checkBingo` result. |
| `Lines.CheckBingoAwayFromCell` | src/components/BingoGame.tsx:62-90 | Changing one cell changes whether a line is in the `checkBingo` result only for lines through that cell. |
| `LineIds.NatToString` | src/components/BingoGame.tsx:68 | The `${i}` in `row-${i}` is a non-empty string of decimal digits with no leading zero. |
| `LineIds.NatToStringValue` | src/components/BingoGame.tsx:191 | The decimal value of the digits of `i` is `i`. |
| `LineIds.ParseIndex` | src/components/BingoGame.tsx:191 | Defines `Number(index)` on `undefined` and on trimmed strings of decimal digits. Its meaning is stated by `LineIds.NumberReadsDecimal`, `LineIds.IndexRoundTrip`, `LineIds.NumberOfEmpty`, `LineIds.NumberOfPadded`, `LineIds.NumberOfLeadingZero` and `LineIds.NumberRejects`. |
| `LineIds.NumberReadsDecimal` | src/components/BingoGame.tsx:191 | For `n` up to 2^53, `Number(index)` is `n` exactly when the trimmed index is `${n}` after any number of zeros, or is empty and `n` is `0`. (Above 2^53 the model reads the digits exactly, where `Number` rounds them.) |
| `LineIds.NumberRejects` | src/components/BingoGame.tsx:191 | `Number(undefined)` and `Number("x")` give no value. |
| `LineIds.NumberOfEmpty` | src/components/BingoGame.tsx:191 | `Number("")` is `0`. |
| `LineIds.NumberOfPadded` | src/components/BingoGame.tsx:191 | `Number(" 7 ")` is `7`. |
| `LineIds.NumberOfLeadingZero` | src/components/BingoGame.tsx:191 | `Number("07")` is `7`. |
| `LineIds.Name` | src/components/BingoGame.tsx:68 | Defines the identifiers `row-${i}` (and `col-${j}` at :75, `diag-1` at :81 and `diag-2` at :86). Their meaning is stated by `LineIds.DecodeNameInvertsName` and `LineIds.NamesOfCheckBingoDistinct`. |
| `LineIds.DecodeName` | src/components/BingoGame.tsx:184-199 | Defines the overlay's reading of an identifier: split at `-`, then decide on the kind and the index. Its meaning is stated by `LineIds.DecodeNameInvertsName` and `LineIds.EmptyRowIndexIsRowZero`. |
| `LineIds.DecodeParts` | src/components/BingoGame.tsx:189-198 | Defines the overlay's branches on `type` and `index`. Its meaning is stated by `LineIds.DecodeRowName`, `LineIds.DecodeColName` and `LineIds.DecodeDiagNames`. |
| `LineIds.Split` | src/components/BingoGame.tsx:185 | `split('-')` returns at least one piece, no piece holds `-`, and joining the pieces with `-` gives back the input. |
| `LineIds.SplitJoin` | src/components/BingoGame.tsx:185 | Splitting a join of `-`-free pieces at `-` returns those pieces. |
| `LineIds.SplitPair` | src/components/BingoGame.tsx:185 | A `kind-index` identifier with no other `-` splits into `[kind, index]`. |
| `LineIds.DecodeNamePair` | src/components/BingoGame.tsx:185-199 | The overlay decides from the two pieces of such an identifier alone. |
| `LineIds.IndexRoundTrip` | src/components/BingoGame.tsx:191 | A formatted index holds no `-` and parses back to itself. |
| `LineIds.DecodeRowName` | src/components/BingoGame.tsx:189-191 | `row-i` is drawn as the horizontal line of row `i`. |
| `LineIds.DecodeColName` | src/components/BingoGame.tsx:192-194 | `col-j` is drawn as the vertical line of column `j`. |
| `LineIds.DecodeDiagNames` | src/components/BingoGame.tsx:195-198 | `diag-1` and `diag-2` are drawn as the two diagonals. |
| `LineIds.DecodeNameInvertsName` | src/components/BingoGame.tsx:184-199 | Every identifier `checkBingo` produces is decoded by the overlay as the line it was made for. |
| `LineIds.EmptyRowIndexIsRowZero` | src/components/BingoGame.tsx:185-191 | `row-` (no digits) is read as row 0, because `Number("")` is `0`. |
| `LineIds.NamesOfCheckBingoDistinct` | src/components/BingoGame.tsx:202 | The identifiers of one result are pairwise distinct, so they are valid React keys. |
| `Bingo.AllFilled` | src/components/BingoGame.tsx:96-98 | Defines the `allCellsFilled` test: every cell passes `Text.HasContent`. Its meaning is stated by `Bingo.AllFilledIff`, and its use by `Bingo.ToggleMode`. |
| `Bingo.AllFilledIff` | src/components/BingoGame.tsx:96-98 | The validation passes exactly when no cell is blank. |
| `Bingo.InitializeBoard` | src/components/BingoGame.tsx:23-34 | The mode and size are kept; the board has the current size with every cell empty and unmarked; no line is reported. |
| `Bingo.Initial` | src/components/BingoGame.tsx:11-20 | After mounting: edit mode, 3 x 3, every cell empty and unmarked, no lines, and the invariant holds. |
| `Bingo.ChangeSize` | src/components/BingoGame.tsx:143 | Rows and columns both become `n`. When the size actually changed, the board is rebuilt empty at `n` x `n` with no lines; otherwise the state is unchanged. |
| `Bingo.EditCellText` | src/components/BingoGame.tsx:37-43 | In edit mode only the text of the edited cell changes. In play mode nothing changes. |
| `Bingo.ClickCell` | src/components/BingoGame.tsx:46-59 | In play mode the clicked cell becomes marked (left click) or unmarked (right click), its text and every other cell are kept, and the reported lines are recomputed from the new board. In edit mode nothing changes. |
| `Bingo.ToggleMode` | src/components/BingoGame.tsx:93-115 | From edit mode, the switch to play happens, changing nothing else, if and only if every cell has text; otherwise the alert fires and nothing changes. From play mode, the switch to edit always happens: selections and lines are cleared and texts are kept. |
| `Bingo.Enabled` | src/components/BingoGame.tsx:133-181 | Defines which controls are on screen: the size form only in edit mode (:133), the cell inputs only in edit mode (:169-175), the cells only at board positions (:158-168), the mode button always. Its meaning is stated by `Bingo.Step`. |
| `Bingo.Step` | src/components/BingoGame.tsx:126-181 | Every action of the rendered controls, including the size form (`handleSizeChange`), keeps the state invariant. An action whose control is not on screen leaves the state unchanged. |
| `Bingo.Run` | src/components/BingoGame.tsx:126-181 | Every sequence of actions keeps the invariant. |
| `Bingo.InitializeKeepsInv` | src/components/BingoGame.tsx:118-121 | Re-initializing from edit mode yields a consistent state: nothing marked and no lines. |
| `Bingo.ResizeKeepsInv` | src/components/BingoGame.tsx:143 | Changing the size in edit mode keeps the invariant. |
| `Bingo.EditKeepsInv` | src/components/BingoGame.tsx:37-43 | Editing a text keeps the invariant. |
| `Bingo.ClickKeepsInv` | src/components/BingoGame.tsx:46-59 | A click keeps the invariant: every text is still filled and the lines match the new board. |
| `Bingo.ToggleKeepsInv` | src/components/BingoGame.tsx:93-115 | Toggling keeps the invariant in both directions. |
| `Bingo.ReachableStatesReportExactly` | src/components/BingoGame.tsx:62-90 | In every state reachable from the mounted component, the reported lines are exactly the completed lines. |
| `Bingo.EditPlayEditRestores` | src/components/BingoGame.tsx:93-115 | Switching from a filled edit board to play and back returns exactly the starting state, with no alert. |
| `Bingo.PlayEditPlayClears` | src/components/BingoGame.tsx:106-114 | Going from play to edit and back to play never trips the validation, and leaves nothing marked and no lines. |
| `Bingo.ValidationBlocksPlay` | src/components/BingoGame.tsx:96-103 | A cell whose text is empty or all whitespace makes the toggle alert and change nothing. |
| `Bingo.DeselectRemovesLinesThrough` | src/components/BingoGame.tsx:50-51 | After a right click no line through the clicked cell is reported. |
| `Bingo.ClickKeepsOtherLines` | src/components/BingoGame.tsx:46-59 | When the reported lines match the board, a click changes whether a line is reported only if the line passes through the clicked cell. |
| `Bingo.SelectOnlyAddsSelections` | src/components/BingoGame.tsx:52-53 | A left click unmarks no cell. |
| `Bingo.SelectKeepsLines` | src/components/BingoGame.tsx:52-58 | When the reported lines match the board, a left click never removes a reported line. |
| `Scenarios.PlayStateInv` | src/components/BingoGame.tsx:93-105 | A labelled 3 x 3 board in play mode, with its lines computed, is a consistent state. |
| `Scenarios.ClickMarked` | src/components/BingoGame.tsx:46-59 | On the labelled 3 x 3 board a click adds the cell to, or removes it from, the marked set. |
| `Scenarios.NothingSelectedReportsNothing` | src/components/BingoGame.tsx:62-90 | With nothing marked, no line is reported. |
| `Scenarios.TopRowReportsRowZero` | src/components/BingoGame.tsx:66-70 | Marking the three cells of the top row reports `row-0` alone. |
| `Scenarios.MainDiagonalReportsDiag1` | src/components/BingoGame.tsx:79-82 | Marking the main diagonal reports `diag-1` alone. |
| `Scenarios.MiddleColumnThenDeselect` | src/components/BingoGame.tsx:73-77 | Marking the middle column reports `col-1` alone. Unmarking its centre afterwards leaves nothing reported. |

## Left out

- Rendering: the CSS classes, the grid style, the overlay's positions (`calc(...)`) and the "bingo" banner with its line count are not modelled. The overlay is modelled only as far as deciding which line an identifier names.
- React scheduling: each handler is one atomic transition. Batched `setState` calls and the effect on `[rows, cols]` are folded into that transition.
- `alert`: modelled as the `alerted` flag of `Bingo.ToggleMode`'s result. The message text is not modelled.
- The `maxLength={20}` attribute of the cell inputs is enforced by the browser, outside the handler, and is not modelled. `Bingo.EditCellText` accepts any text.
- `Bingo.ChangeSize`: `Number(e.target.value)` is modelled for non-negative integers only. Fractional, negative and `NaN` sizes are not modelled, and the input's `min`/`max` attributes are not modelled either, because `onChange` does not consult them. The browser also checks `required`, `min="2"` and `max="10"` before it fires `onSubmit`, so `handleSizeChange` never runs outside sizes 2 to 10. The model admits the `SubmitSize` action at every size, which is more than the browser allows; every invariant result still holds for those extra runs.
- `LineIds.ParseIndex`: `Number` is modelled for trimmed strings of decimal digits (the empty string gives `0`) and for `undefined`. A sign, a decimal point, an exponent, a `0x`/`0o`/`0b` prefix, `Infinity` or any other text gives no value in the model. For these `Number` gives `NaN`, a non-integer, or an integer: `+1`, `1.0`, `1e0` and `0x1` all give `1`. `checkBingo` never produces such an index. `Number` also rounds a digit string whose value exceeds 2^53 to the nearest double (`"9007199254740993"` gives 9007199254740992); the model reads it exactly. `checkBingo`'s indexes are below 2^32, where the two agree.
- `LineIds.NumberReadsDecimal`: the "exactly" holds of JavaScript's `Number` for values up to 2^53 only; above that `Number` rounds and the model does not.
- `LineIds.DecodeName`: an identifier of kind `row` or `col` whose index `ParseIndex` gives no value is read as no line. The component still renders a horizontal or vertical line element for it. Its `top`/`left` is computed from `NaN`, from a non-integer, or from an integer the model does not recognise (`row-+1`, `row-1.0`, `row-1e0` and `row-0x1` are drawn as row 1, where the model reads no line).
- `Bingo.InitializeKeepsInv`, `Bingo.ResizeKeepsInv`: these are stated for edit mode only, because the size form that triggers them is rendered only in edit mode.

=== FILE: game.dfy ===
/**
 The bingo component's state machine: the handlers `initializeBoard`,
 `handleCellTextChange`, `handleCellClick`, `toggleMode` and the size
 control, each as one atomic transition of the whole state.
 */
module Bingo {
  import opened Text
  import opened Grid
  import opened Lines

  /** The component state: `mode`, `rows`, `cols`, `board` and
      `completedLines`. */
  datatype Game = Game(mode: Mode, rows: nat, cols: nat, board: Board, completed: seq<Line>)

  /** What `toggleMode` leaves behind, and whether it raised the
      "fill every cell" alert instead of switching. */
  datatype Toggled = Toggled(game: Game, alerted: bool)

  /** The validation of `toggleMode`: every cell's trimmed text is non-empty. */
  predicate AllFilled(b: Board) {
    forall i, j :: 0 <= i < |b| && 0 <= j < |b[i]| ==> HasContent(b[i][j].text)
  }

  /** The validation passes exactly when no cell is blank. */
  lemma AllFilledIff(b: Board)
    ensures AllFilled(b) <==> forall i, j :: 0 <= i < |b| && 0 <= j < |b[i]| ==> !Blank(b[i][j].text)
  {
  }

  /** `initializeBoard`: a fresh board of the current size, every cell empty
      and unselected, and no completed lines. The mode is left alone. */
  function InitializeBoard(g: Game): (r: Game)
    ensures r.mode == g.mode && r.rows == g.rows && r.cols == g.cols
    ensures WellFormed(r.board, r.rows, r.cols)
    ensures forall i, j :: 0 <= i < r.rows && 0 <= j < r.cols ==> r.board[i][j] == Cell("", false)
    ensures r.completed == []
  {
    g.(board := EmptyBoard(g.rows, g.cols), completed := [])
  }

  /** The state right after the component mounts: a 3 x 3 board in edit
      mode, once the mount effect has run `initializeBoard`. */
  function Initial(): (g: Game)
    ensures g.mode == Edit && g.rows == 3 && g.cols == 3
    ensures WellFormed(g.board, 3, 3) && g.completed == []
    ensures forall i, j :: 0 <= i < 3 && 0 <= j < 3 ==> g.board[i][j] == Cell("", false)
    ensures Inv(g)
  {
    InitializeKeepsInv(Game(Edit, 3, 3, [], []));
    InitializeBoard(Game(Edit, 3, 3, [], []))
  }

  /** The size input: `rows` and `cols` both become `n`, and the effect on
      `[rows, cols]` rebuilds the board only when one of them actually
      changed. */
  function ChangeSize(g: Game, n: nat): (r: Game)
    ensures r.mode == g.mode && r.rows == n && r.cols == n
    ensures n == g.rows && n == g.cols ==> r == g
    ensures n != g.rows || n != g.cols ==>
      && WellFormed(r.board, n, n)
      && (forall i, j :: 0 <= i < n && 0 <= j < n ==> r.board[i][j] == Cell("", false))
      && r.completed == []
  {
    if n == g.rows && n == g.cols then g else InitializeBoard(g.(rows := n, cols := n))
  }

  /** `handleCellTextChange`: in edit mode only the text of cell `(i, j)`
      changes; in play mode nothing happens. */
  function EditCellText(g: Game, i: nat, j: nat, text: string): (r: Game)
    requires WellFormed(g.board, g.rows, g.cols)
    requires g.mode == Edit ==> InBounds(g.board, i, j)
    ensures g.mode != Edit ==> r == g
    ensures g.mode == Edit ==>
      && r.mode == g.mode && r.rows == g.rows && r.cols == g.cols && r.completed == g.completed
      && WellFormed(r.board, r.rows, r.cols)
      && r.board[i][j].text == text
      && r.board[i][j].selected == g.board[i][j].selected
      && forall k, m :: 0 <= k < g.rows && 0 <= m < g.cols && (k, m) != (i, j) ==> r.board[k][m] == g.board[k][m]
  {
    if g.mode != Edit then g
    else g.(board := SetCell(g.board, i, j, g.board[i][j].(text := text)))
  }

  /** `handleCellClick`: in play mode cell `(i, j)` becomes selected on a
      left click and unselected on a right click, its text and every other
      cell are kept, and the completed lines are recomputed from the new
      board; in edit mode nothing happens. */
  function ClickCell(g: Game, i: nat, j: nat, rightClick: bool): (r: Game)
    requires WellFormed(g.board, g.rows, g.cols)
    requires g.mode == Play ==> InBounds(g.board, i, j)
    ensures g.mode != Play ==> r == g
    ensures g.mode == Play ==>
      && r.mode == g.mode && r.rows == g.rows && r.cols == g.cols
      && WellFormed(r.board, r.rows, r.cols)
      && r.board[i][j].selected == !rightClick
      && r.board[i][j].text == g.board[i][j].text
      && (forall k, m :: 0 <= k < g.rows && 0 <= m < g.cols && (k, m) != (i, j) ==> r.board[k][m] == g.board[k][m])
      && r.completed == CheckBingo(r.board, r.rows, r.cols)
  {
    if g.mode != Play then g
    else
      var b := SetCell(g.board, i, j, g.board[i][j].(selected := !rightClick));
      g.(board := b, completed := CheckBingo(b, g.rows, g.cols))
  }

  /** `toggleMode`. From edit mode it switches to play, touching nothing
      else, when every cell has text, and otherwise alerts and changes
      nothing. From play mode it always switches to edit, clearing every
      selection and the completed lines and keeping every text. */
  function ToggleMode(g: Game): (r: Toggled)
    requires WellFormed(g.board, g.rows, g.cols)
    ensures g.mode == Edit ==> (r.alerted <==> !AllFilled(g.board))
    ensures g.mode == Edit && !AllFilled(g.board) ==> r.game == g
    ensures g.mode == Edit && AllFilled(g.board) ==> r.game == g.(mode := Play)
    ensures g.mode == Play ==>
      && !r.alerted
      && r.game.mode == Edit && r.game.rows == g.rows && r.game.cols == g.cols
      && WellFormed(r.game.board, g.rows, g.cols)
      && NoSelection(r.game.board)
      && (forall i, j :: 0 <= i < g.rows && 0 <= j < g.cols ==> r.game.board[i][j].text == g.board[i][j].text)
      && r.game.completed == []
  {
    if g.mode == Edit then
      if AllFilled(g.board) then Toggled(g.(mode := Play), false)
      else Toggled(g, true)
    else
      Toggled(g.(mode := Edit, board := ClearSelections(g.board), completed := []), false)
  }

  /** What holds of every state the component can reach: the board has its
      declared shape; in edit mode nothing is selected; in play mode every
      cell has text; and the completed lines are exactly those `checkBingo`
      reports for the board (none on a board without cells, where
      `checkBingo` never runs). */
  predicate Inv(g: Game) {
    && WellFormed(g.board, g.rows, g.cols)
    && (g.mode == Edit ==> NoSelection(g.board))
    && (g.mode == Play ==> AllFilled(g.board))
    && g.completed == (if g.rows > 0 && g.cols > 0 then CheckBingo(g.board, g.rows, g.cols) else [])
  }

  /** The user actions the rendered component offers. */
  datatype Event =
    | Resize(n: nat)                                // the size input's onChange
    | SubmitSize                                    // the size form's onSubmit
    | TypeText(i: nat, j: nat, text: string)        // a cell input's onChange
    | Click(i: nat, j: nat, rightClick: bool)       // a cell's onClick / onContextMenu
    | Toggle                                        // the mode button

  /** Whether the control behind `e` is on screen: the size form and the cell
      inputs exist only in edit mode, the cells only at board positions. */
  predicate Enabled(g: Game, e: Event) {
    match e
    case Resize(_) => g.mode == Edit
    case SubmitSize => g.mode == Edit
    case TypeText(i, j, _) => g.mode == Edit && InBounds(g.board, i, j)
    case Click(i, j, _) => InBounds(g.board, i, j)
    case Toggle => true
  }

  /** One user action; an action whose control is not rendered has no effect.
      Every action keeps the invariant. */
  function Step(g: Game, e: Event): (r: Game)
    requires Inv(g)
    ensures Inv(r)
    ensures !Enabled(g, e) ==> r == g
  {
    if !Enabled(g, e) then g
    else match e
      case Resize(n) => ResizeKeepsInv(g, n); ChangeSize(g, n)
      case SubmitSize => InitializeKeepsInv(g); InitializeBoard(g)
      case TypeText(i, j, text) => EditKeepsInv(g, i, j, text); EditCellText(g, i, j, text)
      case Click(i, j, right) => ClickKeepsInv(g, i, j, right); ClickCell(g, i, j, right)
      case Toggle => ToggleKeepsInv(g); ToggleMode(g).game
  }

  /** A sequence of user actions, applied in order. */
  function Run(g: Game, es: seq<Event>): (r: Game)
    requires Inv(g)
    ensures Inv(r)
    decreases |es|
  {
    if es == [] then g else Run(Step(g, es[0]), es[1..])
  }

  lemma InitializeKeepsInv(g: Game)
    requires g.mode == Edit
    ensures Inv(InitializeBoard(g))
  {
    var r := InitializeBoard(g);
    assert NoSelection(r.board) by {
      forall i, j | 0 <= i < |r.board| && 0 <= j < |r.board[i]| ensures !r.board[i][j].selected {
        assert r.board[i][j] == Cell("", false);
      }
    }
    if r.rows > 0 && r.cols > 0 {
      NoSelectionNoLines(r.board, r.rows, r.cols);
    }
  }

  lemma ResizeKeepsInv(g: Game, n: nat)
    requires Inv(g) && g.mode == Edit
    ensures Inv(ChangeSize(g, n))
  {
    if n != g.rows || n != g.cols {
      InitializeKeepsInv(g.(rows := n, cols := n));
    }
  }

  lemma EditKeepsInv(g: Game, i: nat, j: nat, text: string)
    requires Inv(g) && g.mode == Edit && InBounds(g.board, i, j)
    ensures Inv(EditCellText(g, i, j, text))
  {
    var r := EditCellText(g, i, j, text);
    assert g.rows > 0 && g.cols > 0 by { assert |g.board[i]| == g.cols; }
    NoSelectionNoLines(g.board, g.rows, g.cols);
    SetCellKeepsNoSelection(g.board, i, j, g.board[i][j].(text := text));
    NoSelectionNoLines(r.board, r.rows, r.cols);
  }

  lemma ClickKeepsInv(g: Game, i: nat, j: nat, right: bool)
    requires Inv(g) && InBounds(g.board, i, j)
    ensures Inv(ClickCell(g, i, j, right))
  {
    if g.mode == Play {
      var r := ClickCell(g, i, j, right);
      assert g.rows > 0 && g.cols > 0 by { assert |g.board[i]| == g.cols; }
      assert AllFilled(r.board) by {
        forall k, m | 0 <= k < |r.board| && 0 <= m < |r.board[k]| ensures HasContent(r.board[k][m].text) {
          assert r.board[k][m].text == g.board[k][m].text by {
            if (k, m) != (i, j) {
              assert r.board[k][m] == g.board[k][m];
            }
          }
        }
      }
    }
  }

  lemma ToggleKeepsInv(g: Game)
    requires Inv(g)
    ensures Inv(ToggleMode(g).game)
  {
    var r := ToggleMode(g).game;
    if g.mode == Edit {
      if AllFilled(g.board) {
        assert r == g.(mode := Play);
      }
    } else if g.rows > 0 && g.cols > 0 {
      NoSelectionNoLines(r.board, r.rows, r.cols);
    }
  }

  /** Every state reachable from the mounted component satisfies `Inv`; in
      particular the reported lines are always exactly the completed ones. */
  lemma ReachableStatesReportExactly(es: seq<Event>)
    ensures var g := Run(Initial(), es);
      && Inv(g)
      && (g.rows > 0 && g.cols > 0 ==> forall l :: l in g.completed <==> Completed(g.board, g.rows, g.cols, l))
  {
  }

  /** Switching to play and back returns exactly the state one started
      from: texts kept, nothing selected, no completed lines. */
  lemma EditPlayEditRestores(g: Game)
    requires Inv(g) && g.mode == Edit && AllFilled(g.board)
    ensures var p := ToggleMode(g);
      && !p.alerted && p.game.mode == Play
      && ToggleMode(p.game) == Toggled(g, false)
  {
    var p := ToggleMode(g).game;
    assert p == g.(mode := Play);
    ClearSelectionsKeepsUnselected(g.board);
    if g.rows > 0 && g.cols > 0 {
      NoSelectionNoLines(g.board, g.rows, g.cols);
    }
  }

  /** Leaving play for edit and coming back never trips the validation:
      texts cannot change in play mode. The selections and lines are gone. */
  lemma PlayEditPlayClears(g: Game)
    requires Inv(g) && g.mode == Play
    ensures var e := ToggleMode(g).game;
      var p := ToggleMode(e);
      && !p.alerted && p.game.mode == Play
      && NoSelection(p.game.board) && p.game.completed == []
  {
    var e := ToggleMode(g).game;
    assert AllFilled(e.board) by {
      forall i, j | 0 <= i < |e.board| && 0 <= j < |e.board[i]| ensures HasContent(e.board[i][j].text) {
        assert e.board[i][j].text == g.board[i][j].text;
      }
    }
  }

  /** An empty or all-whitespace cell makes the toggle alert and change
      nothing. */
  lemma ValidationBlocksPlay(g: Game, i: nat, j: nat)
    requires WellFormed(g.board, g.rows, g.cols) && g.mode == Edit
    requires InBounds(g.board, i, j) && !HasContent(g.board[i][j].text)
    ensures ToggleMode(g).alerted && ToggleMode(g).game == g
    ensures Blank(g.board[i][j].text)
  {
  }

  /** A right click removes every line through the clicked cell. */
  lemma DeselectRemovesLinesThrough(g: Game, i: nat, j: nat)
    requires WellFormed(g.board, g.rows, g.cols) && g.mode == Play && InBounds(g.board, i, j)
    ensures var r := ClickCell(g, i, j, true);
      forall l :: Through(l, i, j, g.cols) ==> l !in r.completed
  {
    var r := ClickCell(g, i, j, true);
    forall l | Through(l, i, j, g.cols) ensures l !in r.completed {
      if Completed(r.board, r.rows, r.cols, l) {
        CompletedLineSelectedThrough(r.board, r.rows, r.cols, l, i, j);
      }
    }
  }

  /** A click changes the status of no line that avoids the clicked cell. */
  lemma ClickKeepsOtherLines(g: Game, i: nat, j: nat, right: bool)
    requires WellFormed(g.board, g.rows, g.cols) && g.mode == Play && InBounds(g.board, i, j)
    requires g.completed == CheckBingo(g.board, g.rows, g.cols)
    ensures var r := ClickCell(g, i, j, right);
      forall l :: !Through(l, i, j, g.cols) ==> (l in r.completed <==> l in g.completed)
  {
    var r := ClickCell(g, i, j, right);
    assert r.completed == CheckBingo(r.board, g.rows, g.cols);
    CheckBingoAwayFromCell(g.board, r.board, g.rows, g.cols, i, j);
  }

  /** A left click only adds selections. */
  lemma SelectOnlyAddsSelections(g: Game, i: nat, j: nat)
    requires WellFormed(g.board, g.rows, g.cols) && g.mode == Play && InBounds(g.board, i, j)
    ensures var r := ClickCell(g, i, j, false);
      forall k, m :: 0 <= k < g.rows && 0 <= m < g.cols && g.board[k][m].selected ==> r.board[k][m].selected
  {
    var r := ClickCell(g, i, j, false);
    forall k, m | 0 <= k < g.rows && 0 <= m < g.cols && g.board[k][m].selected
      ensures r.board[k][m].selected
    {
      if (k, m) != (i, j) {
        assert r.board[k][m] == g.board[k][m];
      }
    }
  }

  /** A left click never removes a completed line. */
  lemma SelectKeepsLines(g: Game, i: nat, j: nat)
    requires WellFormed(g.board, g.rows, g.cols) && g.mode == Play && InBounds(g.board, i, j)
    requires g.completed == CheckBingo(g.board, g.rows, g.cols)
    ensures forall l :: l in g.completed ==> l in ClickCell(g, i, j, false).completed
  {
    var r := ClickCell(g, i, j, false);
    assert r.completed == CheckBingo(r.board, g.rows, g.cols);
    SelectOnlyAddsSelections(g, i, j);
    CheckBingoMonotone(g.board, r.board, g.rows, g.cols);
  }
}

=== FILE: grid.dfy ===
/**
 The game's data: the two modes, a cell, and the board as rows of cells.
 */
module Grid {

  /** `BingoMode`: authoring the cell texts, or marking cells. */
  datatype Mode = Edit | Play

  /** `BingoCell`: the label a player typed and whether the cell is marked. */
  datatype Cell = Cell(text: string, selected: bool)

  /** The board, row by row. */
  type Board = seq<seq<Cell>>

  /** The shape every handler relies on: `rows` rows of `cols` cells each. */
  predicate WellFormed(b: Board, rows: nat, cols: nat) {
    |b| == rows && forall i :: 0 <= i < |b| ==> |b[i]| == cols
  }

  /** `(i, j)` addresses a cell of the board. */
  predicate InBounds(b: Board, i: nat, j: nat) {
    i < |b| && j < |b[i]|
  }

  /** No cell is marked. */
  predicate NoSelection(b: Board) {
    forall i, j :: 0 <= i < |b| && 0 <= j < |b[i]| ==> !b[i][j].selected
  }

  /** The board `initializeBoard` builds: `rows` rows of `cols` fresh cells,
      each with empty text and not selected. */
  function EmptyBoard(rows: nat, cols: nat): (b: Board)
    ensures WellFormed(b, rows, cols)
    ensures forall i, j :: 0 <= i < rows && 0 <= j < cols ==> b[i][j].text == "" && !b[i][j].selected
  {
    seq(rows, _ => seq(cols, _ => Cell("", false)))
  }

  /** The board with cell `(i, j)` replaced by `c` and every other cell kept. */
  function SetCell(b: Board, i: nat, j: nat, c: Cell): (r: Board)
    requires InBounds(b, i, j)
    ensures |r| == |b| && forall k :: 0 <= k < |b| ==> |r[k]| == |b[k]|
    ensures r[i][j] == c
    ensures forall k, l :: 0 <= k < |b| && 0 <= l < |b[k]| && (k, l) != (i, j) ==> r[k][l] == b[k][l]
  {
    b[i := b[i][j := c]]
  }

  /** Every cell with its selection cleared and its text kept. */
  function ClearSelections(b: Board): (r: Board)
    ensures |r| == |b| && forall k :: 0 <= k < |b| ==> |r[k]| == |b[k]|
    ensures NoSelection(r)
    ensures forall k, l :: 0 <= k < |b| && 0 <= l < |b[k]| ==> r[k][l].text == b[k][l].text
  {
    seq(|b|, k requires 0 <= k < |b| => seq(|b[k]|, l requires 0 <= l < |b[k]| => b[k][l].(selected := false)))
  }

  /** Clearing the selections of a board without any is the identity. */
  lemma ClearSelectionsKeepsUnselected(b: Board)
    requires NoSelection(b)
    ensures ClearSelections(b) == b
  {
    var r := ClearSelections(b);
    forall k | 0 <= k < |b| ensures r[k] == b[k] {
      forall m | 0 <= m < |b[k]| ensures r[k][m] == b[k][m] {
        assert !b[k][m].selected;
      }
    }
  }

  /** Writing an unselected cell into a board without selections leaves it
      without selections. */
  lemma SetCellKeepsNoSelection(b: Board, i: nat, j: nat, c: Cell)
    requires InBounds(b, i, j) && NoSelection(b) && !c.selected
    ensures NoSelection(SetCell(b, i, j, c))
  {
    var r: Board := SetCell(b, i, j, c);
    forall k, m | 0 <= k < |r| && 0 <= m < |r[k]| ensures !r[k][m].selected {
      if (k, m) != (i, j) {
        assert r[k][m] == b[k][m];
      }
    }
  }
}

=== FILE: line_ids.dfy ===
/**
 The string form of line identifiers: `row-i`, `col-j`, `diag-1`, `diag-2`
 as `checkBingo` builds them, and the `line.split('-')` parse the overlay
 rendering applies to them.
 */
module LineIds {
  import opened Lines
  import Text

  datatype Option<T> = None | Some(value: T)

  predicate IsDigit(c: char) {
    '0' <= c <= '9'
  }

  predicate AllDigits(s: string) {
    forall k :: 0 <= k < |s| ==> IsDigit(s[k])
  }

  function DigitChar(d: nat): (c: char)
    requires d < 10
    ensures IsDigit(c)
  {
    ('0' as int + d) as char
  }

  /** Template-literal formatting `${n}` of a non-negative integer: decimal
      digits, with no leading zero except for `0` itself. */
  function NatToString(n: nat): (s: string)
    ensures |s| >= 1 && AllDigits(s)
    ensures |s| > 1 ==> s[0] != '0'
    decreases n
  {
    if n < 10 then [DigitChar(n)] else NatToString(n / 10) + [DigitChar(n % 10)]
  }

  /** The number a string of decimal digits denotes. */
  function DigitsValue(s: string): nat
    requires AllDigits(s)
    decreases |s|
  {
    if |s| == 0 then 0 else 10 * DigitsValue(s[..|s| - 1]) + (s[|s| - 1] as int - '0' as int)
  }

  /** `Number(index)`, for the inputs the overlay can meet that denote a
      non-negative integer. `undefined` (an identifier without `-`) is not a
      number. Otherwise surrounding whitespace is ignored, and what is left
      has a value exactly when it is a string of decimal digits; the empty
      string counts as `0`. */
  function ParseIndex(index: Option<string>): (r: Option<nat>)
    ensures r.Some? <==> index.Some? && AllDigits(Text.Trim(index.value))
    ensures r.Some? ==> r.value == DigitsValue(Text.Trim(index.value))
  {
    match index
    case Some(s) =>
      var t := Text.Trim(s);
      if AllDigits(t) then Some(DigitsValue(t)) else None
    case None => None
  }

  /** `Number(undefined)` and `Number("x")` are not numbers. */
  lemma NumberRejects()
    ensures ParseIndex(None) == None
    ensures ParseIndex(Some("x")) == None
  {
    Text.TrimKeepsUnpadded("x");
  }

  /** `Number("")` is `0`. */
  lemma NumberOfEmpty()
    ensures ParseIndex(Some("")) == Some(0)
  {
    assert Text.Trim("") == "";
  }

  /** `Number(" 7 ")` is `7`: surrounding whitespace is ignored. */
  lemma NumberOfPadded()
    ensures ParseIndex(Some(" 7 ")) == Some(7)
  {
    assert Text.SkipLeading(" 7 ", 0) == 1;
    assert Text.SkipTrailing(" 7 ", 1, 3) == 2;
    assert Text.Trim(" 7 ") == "7";
  }

  /** `Number("07")` is `7`: leading zeros are accepted. */
  lemma NumberOfLeadingZero()
    ensures ParseIndex(Some("07")) == Some(7)
  {
    Text.TrimKeepsUnpadded("07");
    assert "07"[..1] == "0";
    assert "0"[..0] == "";
    assert DigitsValue("0") == 0;
    assert DigitsValue("07") == 7;
  }

  /** Reading back the digits of `n` gives `n`. */
  lemma {:induction false} NatToStringValue(n: nat)
    ensures DigitsValue(NatToString(n)) == n
    decreases n
  {
    if n >= 10 {
      var p := NatToString(n / 10);
      var s := p + [DigitChar(n % 10)];
      assert s[..|s| - 1] == p;
      NatToStringValue(n / 10);
    }
  }

  /** `k` zero digits. */
  function Zeros(k: nat): (z: string)
    ensures |z| == k && AllDigits(z)
  {
    seq(k, _ => '0')
  }

  /** Leading zeros do not change the value of a digit string. */
  lemma {:induction false} ZerosPrefixValue(k: nat, v: string)
    requires AllDigits(v)
    ensures AllDigits(Zeros(k) + v)
    ensures DigitsValue(Zeros(k) + v) == DigitsValue(v)
    decreases |v| + k
  {
    var t := Zeros(k) + v;
    assert AllDigits(t) by {
      forall m | 0 <= m < |t| ensures IsDigit(t[m]) {
        if m >= k { assert t[m] == v[m - k]; }
      }
    }
    if |v| == 0 {
      assert t == Zeros(k);
      if k > 0 {
        assert t[..|t| - 1] == Zeros(k - 1) + "";
        ZerosPrefixValue(k - 1, "");
      }
    } else {
      var p := v[..|v| - 1];
      assert t[..|t| - 1] == Zeros(k) + p;
      assert t[|t| - 1] == v[|v| - 1];
      ZerosPrefixValue(k, p);
    }
  }

  /** A non-empty digit string that starts with a non-zero digit denotes a
      positive number. */
  lemma {:induction false} LeadingDigitPositive(t: string)
    requires AllDigits(t) && |t| >= 1 && t[0] != '0'
    ensures DigitsValue(t) >= 1
    decreases |t|
  {
    if |t| > 1 {
      LeadingDigitPositive(t[..|t| - 1]);
    } else {
      assert t[..0] == "";
    }
  }

  /** A digit string without a leading zero (other than `0` itself) is the
      formatting of its own value. */
  lemma {:induction false} CanonicalDigits(t: string)
    requires AllDigits(t) && |t| >= 1 && (|t| == 1 || t[0] != '0')
    ensures NatToString(DigitsValue(t)) == t
    decreases |t|
  {
    var n := DigitsValue(t);
    if |t| == 1 {
      assert t[..|t| - 1] == "" && t[|t| - 1] == t[0];
      assert DigitsValue(t[..|t| - 1]) == 0;
      assert n == 10 * DigitsValue(t[..|t| - 1]) + (t[|t| - 1] as int - '0' as int);
      assert NatToString(n) == [t[0]];
    } else {
      var p := t[..|t| - 1];
      LeadingDigitPositive(p);
      CanonicalDigits(p);
      var d := t[|t| - 1] as int - '0' as int;
      assert n / 10 == DigitsValue(p) && n % 10 == d;
      assert NatToString(n) == p + [DigitChar(d)];
      assert t == p + [t[|t| - 1]];
    }
  }

  /** Every non-empty digit string is some zeros followed by a digit string
      with no leading zero (or by a lone `0`). */
  lemma {:induction false} StripZeros(t: string) returns (k: nat)
    requires AllDigits(t) && |t| >= 1
    ensures k < |t| && t == Zeros(k) + t[k..]
    ensures |t| - k == 1 || t[k] != '0'
    decreases |t|
  {
    if |t| > 1 && t[0] == '0' {
      var k' := StripZeros(t[1..]);
      k := k' + 1;
      assert t[k..] == t[1..][k'..];
      assert Zeros(k) == ['0'] + Zeros(k');
      assert t == [t[0]] + t[1..];
    } else {
      k := 0;
      assert Zeros(0) == "";
    }
  }

  /** `Number(index)` is `n` exactly when the trimmed index is `${n}` after
      any number of zeros, or is empty and `n` is `0`: the decimal integer
      strings are read as the numbers they denote, and nothing else gives
      a value. */
  lemma NumberReadsDecimal(s: string, n: nat)
    ensures ParseIndex(Some(s)) == Some(n) <==>
      (Text.Trim(s) == "" && n == 0) || exists k :: Text.Trim(s) == Zeros(k) + NatToString(n)
  {
    var t := Text.Trim(s);
    if ParseIndex(Some(s)) == Some(n) && t != "" {
      var k := StripZeros(t);
      var c := t[k..];
      assert AllDigits(c) by {
        forall m | 0 <= m < |c| ensures IsDigit(c[m]) { assert c[m] == t[k + m]; }
      }
      ZerosPrefixValue(k, c);
      CanonicalDigits(c);
      assert t == Zeros(k) + NatToString(n);
    }
    if exists k :: t == Zeros(k) + NatToString(n) {
      var k :| t == Zeros(k) + NatToString(n);
      ZerosPrefixValue(k, NatToString(n));
      NatToStringValue(n);
    }
  }

  /** The identifier `checkBingo` pushes for each completed line. */
  function Name(l: Line): string {
    match l
    case Row(i) => "row" + "-" + NatToString(i)
    case Col(j) => "col" + "-" + NatToString(j)
    case Diag1 => "diag-1"
    case Diag2 => "diag-2"
  }

  /** `s.split(sep)` with a one-character separator: the pieces between
      separators, in order; no piece contains the separator and joining the
      pieces back with it gives `s`. */
  function Split(s: string, sep: char): (parts: seq<string>)
    ensures |parts| >= 1
    ensures forall k :: 0 <= k < |parts| ==> sep !in parts[k]
    ensures Join(parts, sep) == s
    decreases |s|
  {
    if |s| == 0 then [""]
    else
      var rest := Split(s[1..], sep);
      if s[0] == sep then
        assert Join([""] + rest, sep) == [sep] + Join(rest, sep) by {
          assert ([""] + rest)[1..] == rest;
        }
        [""] + rest
      else
        var parts := [[s[0]] + rest[0]] + rest[1..];
        assert Join(parts, sep) == [s[0]] + Join(rest, sep) by {
          if |rest| > 1 {
            assert parts[1..] == rest[1..];
          }
        }
        parts
  }

  /** `parts.join(sep)`. */
  function Join(parts: seq<string>, sep: char): string
    requires |parts| >= 1
    decreases |parts|
  {
    if |parts| == 1 then parts[0] else parts[0] + [sep] + Join(parts[1..], sep)
  }

  /** Splitting undoes joining when no piece contains the separator. */
  lemma {:induction false} SplitJoin(parts: seq<string>, sep: char)
    requires |parts| >= 1
    requires forall k :: 0 <= k < |parts| ==> sep !in parts[k]
    ensures Split(Join(parts, sep), sep) == parts
    decreases |parts|, |parts[0]|
  {
    var p := parts[0];
    if |p| == 0 {
      if |parts| > 1 {
        JoinEmptyHead(parts, sep);
        SplitJoin(parts[1..], sep);
        assert parts == [""] + parts[1..];
      }
    } else {
      var tail := [p[1..]] + parts[1..];
      JoinHeadChar(parts, sep);
      SplitJoin(tail, sep);
      assert p == [p[0]] + p[1..];
      assert parts == [p] + tail[1..];
    }
  }

  /** A join whose first piece is empty starts with the separator. */
  lemma JoinEmptyHead(parts: seq<string>, sep: char)
    requires |parts| > 1 && parts[0] == ""
    ensures var s := Join(parts, sep);
      |s| >= 1 && s[0] == sep && s[1..] == Join(parts[1..], sep)
  {
    var s := Join(parts, sep);
    assert s == [sep] + Join(parts[1..], sep);
  }

  /** A join whose first piece is not empty starts with that piece's first
      character, followed by the join of the rest of the pieces. */
  lemma JoinHeadChar(parts: seq<string>, sep: char)
    requires |parts| >= 1 && |parts[0]| >= 1
    requires forall k :: 0 <= k < |parts| ==> sep !in parts[k]
    ensures var tail := [parts[0][1..]] + parts[1..];
      (forall k :: 0 <= k < |tail| ==> sep !in tail[k])
      && tail[1..] == parts[1..]
      && var s := Join(parts, sep);
      |s| >= 1 && s[0] == parts[0][0] && s[0] != sep && s[1..] == Join(tail, sep)
  {
    var p := parts[0];
    var tail := [p[1..]] + parts[1..];
    assert tail[1..] == parts[1..];
    assert forall k :: 1 <= k < |tail| ==> tail[k] == parts[k];
    assert sep !in p[1..] by {
      forall x | x in p[1..] ensures x != sep {
        assert x in p;
      }
    }
    var s := Join(parts, sep);
    assert s == [p[0]] + Join(tail, sep);
  }

  /** The overlay code's reading of an identifier: split at `-`, the first
      piece names the kind, the second (absent without a `-`) the index. */
  function DecodeName(name: string): Option<Line>
  {
    var parts := Split(name, '-');
    DecodeParts(parts[0], if |parts| > 1 then Some(parts[1]) else None)
  }

  /** What the overlay draws for a kind and an index: a row or a column at
      `Number(index)`, or one of the two diagonals. */
  function DecodeParts(kind: string, index: Option<string>): Option<Line>
  {
    if kind == "row" then
      match ParseIndex(index)
      case Some(n) => Some(Row(n))
      case None => None
    else if kind == "col" then
      match ParseIndex(index)
      case Some(n) => Some(Col(n))
      case None => None
    else if kind == "diag" && index == Some("1") then Some(Diag1)
    else if kind == "diag" && index == Some("2") then Some(Diag2)
    else None
  }

  /** Splitting `kind-index` at `-` gives back `kind` and `index` when
      neither holds a `-`. */
  lemma SplitPair(kind: string, index: string)
    requires '-' !in kind && '-' !in index
    ensures Split(kind + "-" + index, '-') == [kind, index]
  {
    assert Join([kind, index], '-') == kind + "-" + index;
    SplitJoin([kind, index], '-');
  }

  /** The digits of `n` hold no `-`. */
  lemma NoDashInDigits(n: nat)
    ensures '-' !in NatToString(n)
  {
    var d := NatToString(n);
    forall x | x in d ensures x != '-' {
      var k :| 0 <= k < |d| && d[k] == x;
    }
  }

  /** An identifier with a `-`-free kind and index decodes as its two parts. */
  lemma DecodeNamePair(kind: string, index: string)
    requires '-' !in kind && '-' !in index
    ensures DecodeName(kind + "-" + index) == DecodeParts(kind, Some(index))
  {
    SplitPair(kind, index);
  }

  /** The digits of `n` read back as `n`, and hold no `-`. */
  lemma IndexRoundTrip(n: nat)
    ensures '-' !in NatToString(n)
    ensures ParseIndex(Some(NatToString(n))) == Some(n)
  {
    var d := NatToString(n);
    NoDashInDigits(n);
    NatToStringValue(n);
    DigitIsNotWhitespace(d[0]);
    DigitIsNotWhitespace(d[|d| - 1]);
    Text.TrimKeepsUnpadded(d);
  }

  lemma DigitIsNotWhitespace(c: char)
    requires IsDigit(c)
    ensures !Text.IsWhitespace(c)
  {
  }

  lemma DecodeRowName(i: nat)
    ensures DecodeName("row" + "-" + NatToString(i)) == Some(Row(i))
  {
    IndexRoundTrip(i);
    DecodeNamePair("row", NatToString(i));
  }

  lemma DecodeColName(j: nat)
    ensures DecodeName("col" + "-" + NatToString(j)) == Some(Col(j))
  {
    IndexRoundTrip(j);
    DecodeNamePair("col", NatToString(j));
    assert "col" != "row" by { assert "col"[0] != "row"[0]; }
  }

  lemma DecodeDiagNames()
    ensures DecodeName("diag-1") == Some(Diag1)
    ensures DecodeName("diag-2") == Some(Diag2)
  {
    assert "diag" != "row" && "diag" != "col" by { assert |"diag"| == 4; }
    assert "2" != "1" by { assert "2"[0] != "1"[0]; }
    DecodeNamePair("diag", "1");
    assert "diag-1" == "diag" + "-" + "1";
    DecodeNamePair("diag", "2");
    assert "diag-2" == "diag" + "-" + "2";
  }

  /** Every identifier `checkBingo` produces is read back as the line it
      names. */
  lemma DecodeNameInvertsName(l: Line)
    ensures DecodeName(Name(l)) == Some(l)
  {
    match l
    case Row(i) => DecodeRowName(i);
    case Col(j) => DecodeColName(j);
    case Diag1 => DecodeDiagNames();
    case Diag2 => DecodeDiagNames();
  }

  /** `row-` (no digits) is drawn as row 0, since `Number("")` is `0`. */
  lemma EmptyRowIndexIsRowZero()
    ensures DecodeName("row" + "-" + "") == Some(Row(0))
  {
    DecodeNamePair("row", "");
    NumberOfEmpty();
  }

  /** Distinct lines get distinct identifiers, so the identifiers of one
      `checkBingo` result are distinct (they serve as rendering keys). */
  lemma NamesOfCheckBingoDistinct(b: Grid.Board, rows: nat, cols: nat)
    requires Grid.WellFormed(b, rows, cols)
    ensures var r := CheckBingo(b, rows, cols);
      forall a, c :: 0 <= a < c < |r| ==> Name(r[a]) != Name(r[c])
  {
    var r := CheckBingo(b, rows, cols);
    forall a, c | 0 <= a < c < |r| ensures Name(r[a]) != Name(r[c]) {
      DecodeNameInvertsName(r[a]);
      DecodeNameInvertsName(r[c]);
    }
  }
}

=== FILE: lines.dfy ===
/**
 Line completion: which rows, columns and diagonals of the board are fully
 selected, recomputed from the board alone (`checkBingo`).
 */
module Lines {
  import opened Grid

  /** The identifiers `row-i`, `col-j`, `diag-1` (top-left to bottom-right)
      and `diag-2` (top-right to bottom-left). */
  datatype Line = Row(i: nat) | Col(j: nat) | Diag1 | Diag2

  /** What "line `l` is completed" means on a `rows` x `cols` board, stated
      cell by cell. Diagonals exist only on square boards. */
  predicate Completed(b: Board, rows: nat, cols: nat, l: Line)
    requires WellFormed(b, rows, cols)
  {
    match l
    case Row(i) => i < rows && forall j :: 0 <= j < cols ==> b[i][j].selected
    case Col(j) => j < cols && forall i :: 0 <= i < rows ==> b[i][j].selected
    case Diag1 => rows == cols && forall i :: 0 <= i < rows ==> b[i][i].selected
    case Diag2 => rows == cols && forall i :: 0 <= i < rows ==> b[i][cols - 1 - i].selected
  }

  /** `l` names a line that exists on a `rows` x `cols` board (diagonals are
      admitted on any shape; only `Completed` restricts them). */
  predicate Valid(l: Line, rows: nat, cols: nat) {
    match l
    case Row(i) => i < rows
    case Col(j) => j < cols
    case _ => true
  }

  /** The position of `l` in the order `checkBingo` reports lines: rows
      ascending, then columns ascending, then `diag-1`, then `diag-2`. */
  function Rank(l: Line, rows: nat, cols: nat): nat {
    match l
    case Row(i) => i
    case Col(j) => rows + j
    case Diag1 => rows + cols
    case Diag2 => rows + cols + 1
  }

  /** The lines of `ls` appear in strictly increasing report order. */
  predicate Ordered(ls: seq<Line>, rows: nat, cols: nat) {
    forall a, c :: 0 <= a < c < |ls| ==> Rank(ls[a], rows, cols) < Rank(ls[c], rows, cols)
  }

  /** `l` passes through the cell `(i, j)` of a board with `cols` columns. */
  predicate Through(l: Line, i: nat, j: nat, cols: nat) {
    match l
    case Row(k) => k == i
    case Col(k) => k == j
    case Diag1 => i == j
    case Diag2 => i + j == cols - 1
  }

  /** `row.every((cell) => cell.selected)` */
  predicate AllSelected(row: seq<Cell>) {
    forall j :: 0 <= j < |row| ==> row[j].selected
  }

  /** `currentBoard.every((row) => row[j].selected)` */
  predicate ColumnSelected(b: Board, j: nat)
    requires forall r :: 0 <= r < |b| ==> j < |b[r]|
  {
    forall r :: 0 <= r < |b| ==> b[r][j].selected
  }

  /** `currentBoard.every((row, idx) => row[idx].selected)` */
  predicate MainDiagonalSelected(b: Board)
    requires forall r :: 0 <= r < |b| ==> r < |b[r]|
  {
    forall r :: 0 <= r < |b| ==> b[r][r].selected
  }

  /** `currentBoard.every((row, idx) => row[cols - 1 - idx].selected)` */
  predicate AntiDiagonalSelected(b: Board, cols: nat)
    requires |b| <= cols && forall r :: 0 <= r < |b| ==> |b[r]| == cols
  {
    forall r :: 0 <= r < |b| ==> b[r][cols - 1 - r].selected
  }

  /** The first loop of `checkBingo`, run for the rows `0 .. n-1`. */
  function RowLines(b: Board, rows: nat, cols: nat, n: nat): (r: seq<Line>)
    requires WellFormed(b, rows, cols) && n <= rows
    ensures forall l :: l in r <==> l.Row? && l.i < n && Completed(b, rows, cols, l)
    ensures Ordered(r, rows, cols)
    ensures forall k :: 0 <= k < |r| ==> Rank(r[k], rows, cols) < n
    ensures |r| <= n
  {
    if n == 0 then []
    else
      var prefix := RowLines(b, rows, cols, n - 1);
      prefix + (if AllSelected(b[n - 1]) then [Row(n - 1)] else [])
  }

  /** The second loop of `checkBingo`, run for the columns `0 .. n-1`. */
  function ColLines(b: Board, rows: nat, cols: nat, n: nat): (r: seq<Line>)
    requires WellFormed(b, rows, cols) && n <= cols
    ensures forall l :: l in r <==> l.Col? && l.j < n && Completed(b, rows, cols, l)
    ensures Ordered(r, rows, cols)
    ensures forall k :: 0 <= k < |r| ==> rows <= Rank(r[k], rows, cols) < rows + n
    ensures |r| <= n
  {
    if n == 0 then []
    else
      var prefix := ColLines(b, rows, cols, n - 1);
      prefix + (if ColumnSelected(b, n - 1) then [Col(n - 1)] else [])
  }

  /** The two diagonal checks of `checkBingo`, both guarded by `rows === cols`. */
  function DiagLines(b: Board, rows: nat, cols: nat): (r: seq<Line>)
    requires WellFormed(b, rows, cols)
    ensures forall l :: l in r <==> (l == Diag1 || l == Diag2) && Completed(b, rows, cols, l)
    ensures Ordered(r, rows, cols)
    ensures forall k :: 0 <= k < |r| ==> rows + cols <= Rank(r[k], rows, cols)
    ensures |r| <= 2
  {
    (if rows == cols && MainDiagonalSelected(b) then [Diag1] else [])
    + (if rows == cols && AntiDiagonalSelected(b, cols) then [Diag2] else [])
  }

  /** `checkBingo(currentBoard)`: the completed lines of the board, computed
      from the board alone. A line is reported exactly when it is completed,
      each at most once, in report order; a non-square board never reports a
      diagonal. */
  function CheckBingo(b: Board, rows: nat, cols: nat): (r: seq<Line>)
    requires WellFormed(b, rows, cols)
    ensures forall l :: l in r <==> Completed(b, rows, cols, l)
    ensures Ordered(r, rows, cols)
    ensures forall a, c :: 0 <= a < c < |r| ==> r[a] != r[c]
    ensures |r| <= rows + cols + 2
    ensures rows != cols ==> Diag1 !in r && Diag2 !in r
  {
    var rs := RowLines(b, rows, cols, rows);
    var cs := ColLines(b, rows, cols, cols);
    var ds := DiagLines(b, rows, cols);
    OrderedConcat(rs, cs, rows, cols, rows);
    OrderedConcat(rs + cs, ds, rows, cols, rows + cols);
    OrderedHasNoDuplicates(rs + cs + ds, rows, cols);
    rs + cs + ds
  }

  /** Two report-ordered lists, the first wholly before the second, join
      into a report-ordered list. */
  lemma OrderedConcat(s: seq<Line>, t: seq<Line>, rows: nat, cols: nat, bound: nat)
    requires Ordered(s, rows, cols) && Ordered(t, rows, cols)
    requires forall k :: 0 <= k < |s| ==> Rank(s[k], rows, cols) < bound
    requires forall k :: 0 <= k < |t| ==> bound <= Rank(t[k], rows, cols)
    ensures Ordered(s + t, rows, cols)
    ensures forall k :: 0 <= k < |s + t| ==> Rank((s + t)[k], rows, cols) < bound || k >= |s|
  {
    var u := s + t;
    forall a, c | 0 <= a < c < |u|
      ensures Rank(u[a], rows, cols) < Rank(u[c], rows, cols)
    {
      if c < |s| {
        assert u[a] == s[a] && u[c] == s[c];
      } else if a >= |s| {
        assert u[a] == t[a - |s|] && u[c] == t[c - |s|];
      } else {
        assert u[a] == s[a] && u[c] == t[c - |s|];
      }
    }
  }

  /** A report-ordered list names no line twice. */
  lemma OrderedHasNoDuplicates(s: seq<Line>, rows: nat, cols: nat)
    requires Ordered(s, rows, cols)
    ensures forall a, c :: 0 <= a < c < |s| ==> s[a] != s[c]
  {
    forall a, c | 0 <= a < c < |s| ensures s[a] != s[c] {
      assert Rank(s[a], rows, cols) < Rank(s[c], rows, cols);
    }
  }

  /** A non-empty list holds its first line. */
  lemma HeadIsMember(s: seq<Line>)
    requires s != []
    ensures s[0] in s
  {
  }

  /** Two report-ordered lists of lines of the same board shape that hold
      the same lines are the same list. */
  lemma {:induction false} OrderedListsWithSameLinesAreEqual(s: seq<Line>, t: seq<Line>, rows: nat, cols: nat)
    requires Ordered(s, rows, cols) && Ordered(t, rows, cols)
    requires forall l :: l in s ==> Valid(l, rows, cols)
    requires forall l :: l in s <==> l in t
    ensures s == t
    decreases |s|
  {
    if s == [] {
      if t != [] {
        HeadIsMember(t);
        assert false;
      }
    } else {
      assert t != [] by { assert s[0] in t; }
      assert s[0] == t[0] by {
        assert s[0] in t;
        assert t[0] in s;
        var a :| 0 <= a < |s| && s[a] == t[0];
        var c :| 0 <= c < |t| && t[c] == s[0];
        assert Rank(s[0], rows, cols) <= Rank(t[0], rows, cols);
        assert Rank(t[0], rows, cols) <= Rank(s[0], rows, cols);
        assert Valid(s[0], rows, cols) && Valid(t[0], rows, cols);
      }
      forall l
        ensures l in s[1..] <==> l in t[1..]
      {
        if l in s[1..] {
          var a :| 1 <= a < |s| && s[a] == l;
          assert Rank(s[0], rows, cols) < Rank(l, rows, cols);
          assert l in t;
          assert l != t[0];
        }
        if l in t[1..] {
          var c :| 1 <= c < |t| && t[c] == l;
          assert Rank(t[0], rows, cols) < Rank(l, rows, cols);
          assert l in s;
          assert l != s[0];
        }
      }
      OrderedListsWithSameLinesAreEqual(s[1..], t[1..], rows, cols);
      assert s == [s[0]] + s[1..] && t == [t[0]] + t[1..];
    }
  }

  /** `CheckBingo` is the only report-ordered list holding exactly the
      completed lines: its output is fixed by the board, whatever was
      reported before. */
  lemma CheckBingoIsUnique(b: Board, rows: nat, cols: nat, s: seq<Line>)
    requires WellFormed(b, rows, cols)
    requires Ordered(s, rows, cols)
    requires forall l :: l in s <==> Completed(b, rows, cols, l)
    ensures s == CheckBingo(b, rows, cols)
  {
    var r := CheckBingo(b, rows, cols);
    forall l | l in r ensures Valid(l, rows, cols) {
      assert Completed(b, rows, cols, l);
    }
    OrderedListsWithSameLinesAreEqual(r, s, rows, cols);
  }

  /** A board on which nothing is selected has no completed line, as long
      as it has at least one cell. */
  lemma NoSelectionNoLines(b: Board, rows: nat, cols: nat)
    requires WellFormed(b, rows, cols) && NoSelection(b)
    requires rows > 0 && cols > 0
    ensures CheckBingo(b, rows, cols) == []
  {
    var r := CheckBingo(b, rows, cols);
    if r != [] {
      HeadIsMember(r);
      NoSelectionNotCompleted(b, rows, cols, r[0]);
      assert false;
    }
  }

  lemma NoSelectionNotCompleted(b: Board, rows: nat, cols: nat, l: Line)
    requires WellFormed(b, rows, cols) && NoSelection(b)
    requires rows > 0 && cols > 0
    ensures !Completed(b, rows, cols, l)
  {
    match l
    case Row(i) => if i < rows { assert !b[i][0].selected; }
    case Col(j) => if j < cols { assert !b[0][j].selected; }
    case Diag1 => assert !b[0][0].selected;
    case Diag2 => assert !b[0][cols - 1].selected;
  }

  /** A completed line is selected at every cell it passes through. */
  lemma CompletedLineSelectedThrough(b: Board, rows: nat, cols: nat, l: Line, i: nat, j: nat)
    requires WellFormed(b, rows, cols) && InBounds(b, i, j)
    requires Completed(b, rows, cols, l) && Through(l, i, j, cols)
    ensures b[i][j].selected
  {
    match l
    case Row(k) =>
    case Col(k) =>
    case Diag1 =>
    case Diag2 => assert j == cols - 1 - i;
  }

  /** Changing the selection of one cell leaves the completion of every
      line not passing through it unchanged. */
  lemma CompletedAwayFromCell(b: Board, b': Board, rows: nat, cols: nat, l: Line, i: nat, j: nat)
    requires WellFormed(b, rows, cols) && WellFormed(b', rows, cols) && InBounds(b, i, j)
    requires forall k, m :: 0 <= k < rows && 0 <= m < cols && (k, m) != (i, j) ==> b'[k][m] == b[k][m]
    requires !Through(l, i, j, cols)
    ensures Completed(b', rows, cols, l) <==> Completed(b, rows, cols, l)
  {
    match l
    case Row(k) =>
      if k < rows {
        forall m | 0 <= m < cols ensures b'[k][m] == b[k][m] {
          assert (k, m) != (i, j);
        }
      }
    case Col(m) =>
    case Diag1 =>
    case Diag2 =>
  }

  /** Selecting more cells never un-completes a line. */
  lemma CompletedMonotone(b: Board, b': Board, rows: nat, cols: nat, l: Line)
    requires WellFormed(b, rows, cols) && WellFormed(b', rows, cols)
    requires forall k, m :: 0 <= k < rows && 0 <= m < cols && b[k][m].selected ==> b'[k][m].selected
    requires Completed(b, rows, cols, l)
    ensures Completed(b', rows, cols, l)
  {
  }

  /** Marking more cells never removes a line from the report. */
  lemma CheckBingoMonotone(b: Board, b': Board, rows: nat, cols: nat)
    requires WellFormed(b, rows, cols) && WellFormed(b', rows, cols)
    requires forall k, m :: 0 <= k < rows && 0 <= m < cols && b[k][m].selected ==> b'[k][m].selected
    ensures forall l :: l in CheckBingo(b, rows, cols) ==> l in CheckBingo(b', rows, cols)
  {
    forall l | l in CheckBingo(b, rows, cols) ensures l in CheckBingo(b', rows, cols) {
      CompletedMonotone(b, b', rows, cols, l);
    }
  }

  /** Changing one cell leaves the report of every line avoiding it as it was. */
  lemma CheckBingoAwayFromCell(b: Board, b': Board, rows: nat, cols: nat, i: nat, j: nat)
    requires WellFormed(b, rows, cols) && WellFormed(b', rows, cols) && InBounds(b, i, j)
    requires forall k, m :: 0 <= k < rows && 0 <= m < cols && (k, m) != (i, j) ==> b'[k][m] == b[k][m]
    ensures forall l :: !Through(l, i, j, cols) ==> (l in CheckBingo(b', rows, cols) <==> l in CheckBingo(b, rows, cols))
  {
    forall l | !Through(l, i, j, cols) ensures l in CheckBingo(b', rows, cols) <==> l in CheckBingo(b, rows, cols) {
      CompletedAwayFromCell(b, b', rows, cols, l, i, j);
    }
  }
}

=== FILE: scenarios.dfy ===
/**
 Concrete plays on a 3 x 3 board: which lines are reported after a few
 clicks.
 */
module Scenarios {
  import opened Grid
  import opened Lines
  import opened Bingo

  /** A 3 x 3 board, every cell labelled, with exactly the cells of `s`
      selected. */
  function Marked(s: set<(int, int)>): (b: Board)
    ensures WellFormed(b, 3, 3)
    ensures forall i, j :: 0 <= i < 3 && 0 <= j < 3 ==> b[i][j] == Cell("x", (i, j) in s)
  {
    seq(3, i => seq(3, j => Cell("x", (i, j) in s)))
  }

  /** The play-mode state whose board is `Marked(s)`, lines up to date. */
  function PlayState(s: set<(int, int)>): (g: Game)
    ensures g.mode == Play && g.rows == 3 && g.cols == 3 && WellFormed(g.board, 3, 3)
  {
    Game(Play, 3, 3, Marked(s), CheckBingo(Marked(s), 3, 3))
  }

  /** These states are consistent: every cell has text and the lines match. */
  lemma PlayStateInv(s: set<(int, int)>)
    ensures Inv(PlayState(s))
  {
    var b: Board := Marked(s);
    forall i, j | 0 <= i < 3 && 0 <= j < 3 ensures Text.HasContent(b[i][j].text) {
      assert !Text.IsWhitespace(b[i][j].text[0]);
    }
  }

  /** Setting one cell of `Marked(s)` adds it to, or removes it from, `s`. */
  lemma SetCellMarked(s: set<(int, int)>, i: nat, j: nat, v: bool)
    requires i < 3 && j < 3
    ensures SetCell(Marked(s), i, j, Cell("x", v)) == Marked(if v then s + {(i, j)} else s - {(i, j)})
  {
    var s' := if v then s + {(i, j)} else s - {(i, j)};
    var r := SetCell(Marked(s), i, j, Cell("x", v));
    forall k | 0 <= k < 3 ensures r[k] == Marked(s')[k] {
      forall m | 0 <= m < 3 ensures r[k][m] == Marked(s')[k][m] {
        if (k, m) != (i, j) {
          assert r[k][m] == Marked(s)[k][m];
        }
      }
    }
  }

  /** A click on `Marked(s)` adds the cell to, or removes it from, `s`. */
  lemma ClickMarked(s: set<(int, int)>, i: nat, j: nat, right: bool)
    requires i < 3 && j < 3
    ensures ClickCell(PlayState(s), i, j, right) == PlayState(if right then s - {(i, j)} else s + {(i, j)})
  {
    assert Marked(s)[i][j] == Cell("x", (i, j) in s);
    SetCellMarked(s, i, j, !right);
  }

  /** With nothing selected, no line is reported. */
  lemma NothingSelectedReportsNothing()
    ensures PlayState({}).completed == []
  {
    NoSelectionNoLines(Marked({}), 3, 3);
  }

  /** The lines reported for the top row selected. */
  lemma TopRowLines()
    ensures PlayState({} + {(0, 0)} + {(0, 1)} + {(0, 2)}).completed == [Row(0)]
  {
    var s := {} + {(0, 0)} + {(0, 1)} + {(0, 2)};
    assert s == {(0, 0), (0, 1), (0, 2)};
    var b: Board := Marked(s);
    forall l ensures l in [Row(0)] <==> Completed(b, 3, 3, l) {
      match l
      case Row(i) => if i == 1 || i == 2 { assert !b[i][0].selected; }
      case Col(j) => if j < 3 { assert !b[1][j].selected; }
      case Diag1 => assert !b[1][1].selected;
      case Diag2 => assert !b[1][1].selected;
    }
    CheckBingoIsUnique(b, 3, 3, [Row(0)]);
  }

  /** The lines reported for the main diagonal selected. */
  lemma MainDiagonalLines()
    ensures PlayState({} + {(0, 0)} + {(1, 1)} + {(2, 2)}).completed == [Diag1]
  {
    var s := {} + {(0, 0)} + {(1, 1)} + {(2, 2)};
    assert s == {(0, 0), (1, 1), (2, 2)};
    var b: Board := Marked(s);
    forall l ensures l in [Diag1] <==> Completed(b, 3, 3, l) {
      match l
      case Row(i) => if i < 3 { assert !b[i][(i + 1) % 3].selected; }
      case Col(j) => if j < 3 { assert !b[(j + 1) % 3][j].selected; }
      case Diag1 =>
      case Diag2 => assert !b[0][2].selected;
    }
    CheckBingoIsUnique(b, 3, 3, [Diag1]);
  }

  /** The lines reported for the middle column selected. */
  lemma MiddleColumnLines()
    ensures PlayState({} + {(0, 1)} + {(1, 1)} + {(2, 1)}).completed == [Col(1)]
  {
    var s := {} + {(0, 1)} + {(1, 1)} + {(2, 1)};
    assert s == {(0, 1), (1, 1), (2, 1)};
    var b: Board := Marked(s);
    forall l ensures l in [Col(1)] <==> Completed(b, 3, 3, l) {
      match l
      case Row(i) => if i < 3 { assert !b[i][0].selected; }
      case Col(j) => if j < 3 && j != 1 { assert !b[0][j].selected; }
      case Diag1 => assert !b[0][0].selected;
      case Diag2 => assert !b[0][2].selected;
    }
    CheckBingoIsUnique(b, 3, 3, [Col(1)]);
  }

  /** The lines reported for the middle column without its centre. */
  lemma BrokenColumnLines()
    ensures PlayState({} + {(0, 1)} + {(1, 1)} + {(2, 1)} - {(1, 1)}).completed == []
  {
    var s := {} + {(0, 1)} + {(1, 1)} + {(2, 1)} - {(1, 1)};
    assert s == {(0, 1), (2, 1)};
    var b: Board := Marked(s);
    forall l ensures l in [] <==> Completed(b, 3, 3, l) {
      match l
      case Row(i) => if i < 3 { assert !b[i][0].selected; }
      case Col(j) => if j < 3 { assert !b[1][j].selected; }
      case Diag1 => assert !b[0][0].selected;
      case Diag2 => assert !b[1][1].selected;
    }
    CheckBingoIsUnique(b, 3, 3, []);
  }

  /** Three left clicks from an unmarked board mark exactly those cells. */
  lemma ThreeSelections(a: (int, int), b: (int, int), c: (int, int))
    requires 0 <= a.0 < 3 && 0 <= a.1 < 3 && 0 <= b.0 < 3 && 0 <= b.1 < 3 && 0 <= c.0 < 3 && 0 <= c.1 < 3
    ensures ClickCell(ClickCell(ClickCell(PlayState({}), a.0, a.1, false), b.0, b.1, false), c.0, c.1, false)
      == PlayState({} + {a} + {b} + {c})
  {
    var s1 := {} + {a};
    var s2 := s1 + {b};
    ClickMarked({}, a.0, a.1, false);
    ClickMarked(s1, b.0, b.1, false);
    ClickMarked(s2, c.0, c.1, false);
  }

  /** Selecting the three cells of the top row reports that row alone. */
  lemma TopRowReportsRowZero()
    ensures ClickCell(ClickCell(ClickCell(PlayState({}), 0, 0, false), 0, 1, false), 0, 2, false).completed == [Row(0)]
  {
    TopRowClicks();
    TopRowLines();
  }

  lemma TopRowClicks()
    ensures ClickCell(ClickCell(ClickCell(PlayState({}), 0, 0, false), 0, 1, false), 0, 2, false)
      == PlayState({} + {(0, 0)} + {(0, 1)} + {(0, 2)})
  {
    ThreeSelections((0, 0), (0, 1), (0, 2));
  }

  /** Selecting the main diagonal reports `diag-1` alone. */
  lemma MainDiagonalReportsDiag1()
    ensures ClickCell(ClickCell(ClickCell(PlayState({}), 0, 0, false), 1, 1, false), 2, 2, false).completed == [Diag1]
  {
    MainDiagonalClicks();
    MainDiagonalLines();
  }

  lemma MainDiagonalClicks()
    ensures ClickCell(ClickCell(ClickCell(PlayState({}), 0, 0, false), 1, 1, false), 2, 2, false)
      == PlayState({} + {(0, 0)} + {(1, 1)} + {(2, 2)})
  {
    ThreeSelections((0, 0), (1, 1), (2, 2));
  }

  /** Completing the middle column reports it; unselecting its centre cell
      leaves nothing reported, with no stale entry. */
  lemma MiddleColumnThenDeselect()
    ensures var g3 := ClickCell(ClickCell(ClickCell(PlayState({}), 0, 1, false), 1, 1, false), 2, 1, false);
      && g3.completed == [Col(1)]
      && ClickCell(g3, 1, 1, true).completed == []
  {
    MiddleColumnClicks();
    MiddleColumnLines();
    ClickMarked({} + {(0, 1)} + {(1, 1)} + {(2, 1)}, 1, 1, true);
    BrokenColumnLines();
  }

  lemma MiddleColumnClicks()
    ensures ClickCell(ClickCell(ClickCell(PlayState({}), 0, 1, false), 1, 1, false), 2, 1, false)
      == PlayState({} + {(0, 1)} + {(1, 1)} + {(2, 1)})
  {
    ThreeSelections((0, 1), (1, 1), (2, 1));
  }
}

=== FILE: text.dfy ===
/**
 The text side of a cell: the whitespace trimming used by the edit-to-play
 validation. ECMAScript's `String.prototype.trim` removes, from both ends,
 every WhiteSpace and LineTerminator code point; the set is written out here.
 */
module Text {

  /** ECMAScript WhiteSpace (TAB, VT, FF, SP, NBSP, ZWNBSP and the Unicode
      space separators) and LineTerminator (LF, CR, LS, PS) code points. */
  const Whitespace: set<char> := {
    '\t', '\n', '\U{B}', '\U{C}', '\r', ' ', '\U{A0}', '\U{1680}',
    '\U{2000}', '\U{2001}', '\U{2002}', '\U{2003}', '\U{2004}', '\U{2005}',
    '\U{2006}', '\U{2007}', '\U{2008}', '\U{2009}', '\U{200A}',
    '\U{2028}', '\U{2029}', '\U{202F}', '\U{205F}', '\U{3000}', '\U{FEFF}'
  }

  predicate IsWhitespace(c: char) {
    c in Whitespace
  }

  /** Scanning forward from `i`: the index of the first character that is
      not whitespace, or `|s|` when there is none. */
  function SkipLeading(s: string, i: nat): (a: nat)
    requires i <= |s|
    ensures i <= a <= |s|
    ensures forall k :: i <= k < a ==> IsWhitespace(s[k])
    ensures a == |s| || !IsWhitespace(s[a])
    decreases |s| - i
  {
    if i < |s| && IsWhitespace(s[i]) then SkipLeading(s, i + 1) else i
  }

  /** Scanning backward from `j`, never below `a`: the index just after the
      last character that is not whitespace, or `a` when there is none. */
  function SkipTrailing(s: string, a: nat, j: nat): (b: nat)
    requires a <= j <= |s|
    ensures a <= b <= j
    ensures forall k :: b <= k < j ==> IsWhitespace(s[k])
    ensures b == a || !IsWhitespace(s[b - 1])
    decreases j
  {
    if a < j && IsWhitespace(s[j - 1]) then SkipTrailing(s, a, j - 1) else j
  }

  /** `s.trim()`: the piece of `s` between its leading and its trailing
      whitespace. Everything outside the piece is whitespace, and the piece
      is empty or starts and ends with a character that is not. */
  function Trim(s: string): (r: string)
    ensures var a := SkipLeading(s, 0);
      && a + |r| <= |s| && r == s[a..a + |r|]
      && (forall k :: 0 <= k < |s| && (k < a || a + |r| <= k) ==> IsWhitespace(s[k]))
      && (r == [] || (!IsWhitespace(r[0]) && !IsWhitespace(r[|r| - 1])))
  {
    var a := SkipLeading(s, 0);
    s[a..SkipTrailing(s, a, |s|)]
  }

  /** Every character of `s` is whitespace; the empty text is blank. */
  predicate Blank(s: string) {
    forall k :: 0 <= k < |s| ==> IsWhitespace(s[k])
  }

  /** The validation test `cell.text.trim() !== ''`: it holds exactly when
      the text is not blank. */
  predicate HasContent(s: string): (b: bool)
    ensures b <==> !Blank(s)
  {
    TrimEmptyIff(s);
    Trim(s) != ""
  }

  /** Trimming leaves nothing exactly when every character is whitespace. */
  lemma TrimEmptyIff(s: string)
    ensures Trim(s) == "" <==> Blank(s)
  {
    var r := Trim(s);
    if r != "" {
      assert r[0] == s[SkipLeading(s, 0)];
    }
  }

  /** A text that neither starts nor ends with whitespace is its own trim. */
  lemma TrimKeepsUnpadded(s: string)
    requires s == [] || (!IsWhitespace(s[0]) && !IsWhitespace(s[|s| - 1]))
    ensures Trim(s) == s
  {
    assert SkipLeading(s, 0) == 0;
    assert SkipTrailing(s, 0, |s|) == |s|;
    assert s[0..|s|] == s;
  }

  /** Trimming twice changes nothing. */
  lemma TrimIdempotent(s: string)
    ensures Trim(Trim(s)) == Trim(s)
  {
    TrimKeepsUnpadded(Trim(s));
  }
}
